=== FILE: README.md ===
# Flappy-Bird-AI tick loop in Dafny

A model of the `Game` class of Flappy-Bird-AI (`js/game.js`). The class runs a
population of birds, each steered by a small neural network. A
neuro-evolution engine breeds those networks from one generation to the
next. The model covers:

- one call of `update`: the bird loop with its network inputs, the flap
  threshold and the fitness reports; the pipe sweep; score and high score;
  the spawn of a pipe pair; the spawn counter; the choice of the nearest pipe
  and of the target point; the restart when every bird is dead;
- `restart` and `reset`, and the two together as game start and the reset
  button do them (`js/main.js`);
- the flap and pause keys.

The state is an immutable `Game` record. Each operation is a pure function of
it. Everything `js/game.js` calls but does not own is a parameter of type
`Collaborators`: `new Bird`, `bird.flap`, `bird.update`, `pipe.update`,
`network.compute` and `nextGeneration`. The model therefore holds for every
deterministic bird update, pipe motion and evolution strategy. A new bird is
one fixed value, see "## Left out". The engine is recorded
as its population size and the log of calls the game makes on it
(`restart`, `nextGeneration`, `networkScore`). `nextGeneration` may depend on
that whole log.

Modules:

- `Entities`: records, configuration and collaborators.
- `Spawner`: `Math.round`, the gap draw, the pipe pair, the spawn counter,
  and the pipe sweep, both as a function and as the in-place splice loop of
  the source.
- `Targeting`: the nearest pipe and the target point.
- `Controller`: the bird loop, both as a function and as the index loop of
  the source.
- `GameLoop`: `Game`, one tick, `restart`, `reset`, the keys, and the
  invariant between ticks.
- `Runs`: properties across successive ticks.

Modelling choices:

- `Math.random()` is a parameter `u` with `0 <= u < 1`.
- `Math.round(x)` is `floor(x + 0.5)`.
- Numbers are exact reals. The spawn counter resets when
  `interval / tps == pipe_spawn_rate` holds exactly.
  - When `pipe_spawn_rate * tps` is a positive whole number P (`RegularCadence`), the counter cycles through 0 .. P-1.
  - Otherwise the test never succeeds, so a generation spawns exactly one pair.
- `pipes.find` can come back empty. The next line then reads `position` of
  `undefined`, so the TypeError leaves `update` before it re-arms its timer and
  the game stops. A tick then returns `NoPipeAhead` with the state at that moment.
- After `reset` alone, the bird and network arrays need not line up, and the
  score may exceed the high score. Both only hold again after the `restart`
  that always follows (`js/game.js:62-63`, `js/main.js:18-19`). `Inv` is
  therefore established by `Start` (reset then restart) and kept by every tick.

Facts about `js/game.js` that the model keeps as written:

- The gap position is `round(u * (height - 100 - hole_size)) + 50`, so it lies in
  [50, height - 50 - hole_size].
- `reset` sets the high score to 0, so the high score only increases between resets.
- A hole size too large for the playfield is not rejected. When
  `height - 100 - hole_size` is negative, the gap position lies in
  [height - 50 - hole_size, 50], outside [50, height - 50 - hole_size]; it
  leaves the playfield only when hole_size > height - 50. `HoleInRange`
  therefore asks for `Span(c) >= 0`.

## Model

| member | source | states |
|---|---|---|
| Spawner.Round | js/game.js:122 | Math.round gives the integer within half of x, with halves going up |
| Spawner.HoleInRange | js/game.js:121-122 | every draw puts the gap in [50, height - 50 - hole_size] |
| Spawner.EveryHoleReachable | js/game.js:121-122 | every whole position in [50, height - 50 - hole_size] is produced by some draw in [0, 1) |
| Spawner.SpawnPair | js/game.js:123-124 | a new pair is a top pipe then a bottom pipe, both at the right edge and not yet out; the top pipe ends at the gap, and the opening between the pipes is exactly hole_size |
| Spawner.NextIntervalWraps | js/game.js:127-130 | with a whole-number period P, the counter advances by one and wraps to 0 exactly when it reaches P, so it stays in [0, P) |
| Spawner.IrregularCadenceNeverWraps | js/game.js:127-130 | when spawn rate × tps is not a positive whole number, the counter is never reset |
| Spawner.Sweep | js/game.js:108-114 | no pipe left after the sweep is out, and the sweep never adds pipes |
| Spawner.SweepKeepsInOrder | js/game.js:108-114 | the sweep keeps exactly the pipes whose update leaves `out` clear (it drops those whose update sets it), each updated once, in their original relative order |
| Spawner.SweepPipes | js/game.js:108-114 | the splice loop with its index step-back calls `update` once on each original pipe, in order, and leaves the same pipes as the sweep |
| Targeting.FindAhead | js/game.js:132 | the search from a position returns the first pipe whose right edge is past the birds, and finds none only when no such pipe exists |
| Targeting.Nearest | js/game.js:132 | `pipes.find` returns the first pipe ahead in array order, and comes back empty only when none is ahead |
| Targeting.NearestStableUnderAppend | js/game.js:132 | appending pipes never changes a nearest pipe already found |
| Targeting.NearestExistsWhenOneAhead | js/game.js:132 | one pipe ahead is enough for the search to succeed, at that pipe or an earlier one |
| Targeting.NearestHasLeastX | js/game.js:132 | when pipes are ordered by x, the first pipe ahead has the least x of all pipes ahead |
| Controller.FlyBirds | js/game.js:91-106 | the bird loop keeps the number of birds, never touches a dead bird, and moves nothing when the generation and bird arrays differ in length |
| Controller.Deaths | js/game.js:102-104 | the birds a loop kills are exactly those alive before and dead after, listed once each in ascending order |
| Controller.UpdateBirds | js/game.js:91-106 | the index loop leaves the birds as the bird loop does, and makes one `networkScore` call per killed bird in index order, each with the score before the increment |
| GameLoop.Max | js/game.js:117 | Math.max returns the larger of its two arguments |
| GameLoop.Advance | js/game.js:88-136 | a running tick raises the score by one and the high score to the maximum; it keeps the bird count, generation, dead birds and engine population, only appends to the engine log, and steps the spawn counter; it goes on exactly when some pipe is ahead, and then targets the first pipe ahead, otherwise it stops with the old target |
| GameLoop.Tick | js/game.js:87-141 | a paused tick changes nothing; a tick never lowers the high score and adds at most one generation |
| GameLoop.Restart | js/game.js:25-39 | restart takes the generation the engine returns, makes one fresh bird per network, empties the pipes, zeroes score and counter, adds one generation, keeps the high score and the engine's population, and logs one `nextGeneration` call |
| GameLoop.RestartAfterReports | js/game.js:102-140 | a restarting tick asks for the next generation only after this tick's `networkScore` calls: the engine sees them, and the log ends with them followed by `nextGeneration` |
| GameLoop.Reset | js/game.js:41-52 | reset zeroes the high score and the generation count, drops the networks, and starts a fresh engine of the configured size with one `restart` call |
| GameLoop.PlayerFlap | js/game.js:70 | the flap key flaps exactly the living birds while the game runs, and changes nothing else |
| GameLoop.TogglePauseTwice | js/game.js:73 | the pause key flips the flag, and pressing it twice restores the game |
| GameLoop.StartEstablishesInv | js/game.js:62-63 | reset then restart gives matching bird and network arrays, score 0 = high score, counter 0, generation 1, and the engine log [restart, nextGeneration] |
| GameLoop.TickPreservesInv | js/game.js:87-141 | every tick keeps the arrays matched, 0 <= score <= high score, the counter in [0, P) and the generation count at least 1 |
| GameLoop.TickScores | js/game.js:116-117 | a running tick sets the high score to max(high score, score + 1), and leaves score + 1 unless it restarts, in which case it leaves 0 |
| GameLoop.RestartOnlyWhenAllDead | js/game.js:138-140 | a tick restarts, once, exactly when it runs, finds a pipe ahead, and its bird loop leaves no bird alive |
| GameLoop.TickWithoutRestart | js/game.js:138-140 | a running tick that does not restart leaves what the steps before the restart check left |
| GameLoop.SpawnExactlyAtIntervalZero | js/game.js:119-125 | a tick appends a new pair after the swept pipes exactly when the counter is 0 at its start |
| GameLoop.AdvanceMovesBirds | js/game.js:91-106 | the birds after the steps of a tick are those the bird loop leaves |
| GameLoop.AliveBirdSteersByLastTarget | js/game.js:93-100 | each living bird steers by the previous tick's target and the pipes before this tick's sweep |
| GameLoop.ReportsOnTick | js/game.js:102-104 | a tick appends to the engine log exactly one `networkScore` call per bird it kills, in index order, with the pre-increment score, and nothing when the array lengths differ |
| GameLoop.SpawnTickFindsPipe | js/game.js:119-136 | a spawning tick always finds a pipe ahead when the right edge is ahead of the birds |
| GameLoop.SpawnedGapIsTarget | js/game.js:119-136 | when the new pair is the first pipe ahead, the target is the centre of its gap, which lies in [50, height - 50 - hole_size] |
| GameLoop.SpawnKeepsTargetAhead | js/game.js:123-136 | while a swept pipe is still ahead, the tick finds it and targets it, whether or not a pair is spawned behind it |
| Runs.RunTicks | js/game.js:143-145 | across successive ticks the high score and the generation count never decrease |
| Runs.PausedRunFreezes | js/game.js:88 | any number of ticks while paused leave the game as it was |
| Runs.PauseResume | js/game.js:73 | pause, any ticks, unpause gives back exactly the game that was paused |
| Runs.IntervalAfterInRange | js/game.js:127-130 | with a whole-number period, the counter never leaves [0, P) over any number of ticks |
| Runs.CountsUpFromZero | js/game.js:127-130 | from 0 the counter reads 0, 1, ..., P - 1 on the following ticks |
| Runs.SpawnCounterPeriodic | js/game.js:119-130 | spawns are exactly P ticks apart: a counter at 0 is 0 again after P ticks and at no tick in between |
| Runs.IntervalsAlongGeneration | js/game.js:127-130 | within one generation the counter on each tick is the counter at its start, stepped once per tick |
| Runs.SpawnsAlongGeneration | js/game.js:119-130 | tick t of a generation spawns a pair exactly when the stepped counter is 0 |
| Runs.DeadStaysDead | js/game.js:92 | within one generation a dead bird stays exactly as it died |
| Runs.ReportedAtMostOnce | js/game.js:102-104 | within one generation each bird is reported to the engine on at most one tick, the generation's final, restarting tick included |

## Left out

- The constructor, canvas set-up, `render`, `background_x` and the images: they only serve drawing. The top pipe's image size is the configuration's `pipeWidth` and `pipeHeight`.
- `start`: asynchronous image loading, key listener registration and the first timer. Its `reset(); restart()` is `GameLoop.Start`, and the key handlers are `PlayerFlap` and `TogglePause`.
- The `setTimeout` re-arm at the end of `update`, and its period `1000 / (tps * speed_multiplier)`: there is no clock. `Runs.RunTicks` stands for the successive calls.
- `js/main.js` apart from its reset button: the speed and debug controls only change rendering and timing.
- `js/main.js:6` sets the flap key binding to the empty string, so the flap case at `js/game.js:66-70` never runs in the shipped page. `GameLoop.PlayerFlap` models what the handler would do under any other binding.
- `nearest_pipe = null` in `restart`: the field is never read by `update`, which uses a local variable.
- Bird physics, pipe motion, the network's arithmetic, the evolution strategy and the network topology [2, [6], 1]: bird.js, pipe.js, the network and neuro_evolution.js are not part of this model. They are the function fields of `Collaborators`.
- `new Bird(...)` at `js/game.js:33` is taken to be deterministic: `Collaborators.newBird` is one value, so every bird of every generation starts identical, as `GameLoop.Restart` states. bird.js is not part of this model, so a random start position is not modelled.
- The evolution engine is deterministic: `nextGeneration` is a function of the engine's size and call log. After every `reset` that engine is the same value, so the first generation after every reset is the same list of networks. The engine behind `js/game.js:46-51` draws a fresh random population instead. neuro_evolution.js is not part of this model.
- The Pipe constructor is taken to store the position it is given and to start with `out` false. pipe.js is not part of this model.
- Width, height, tps, hole size, bird x and the pipe image dimensions are whole numbers (`int` in `Config`), and the spawn rate is a real. A fractional configuration dimension is not modelled.
- IEEE floating point: positions, inputs and the spawn test are exact reals. Rounding error in `interval / tps` and in the gap draw is not modelled.
- A zero or negative width, height or tps: `WellFormed` asks for all three to be positive. A zero value makes the JavaScript divide by zero and get Infinity or NaN; negative values are excluded as well, although the JavaScript runs with them.
- Targeting.NearestHasLeastX: holds only when the pipes are ordered by x. The source never establishes that order, because it depends on pipe.js.
- Exceptions thrown by the collaborators are not modelled. Only the one the tick itself raises, when no pipe is ahead, is `NoPipeAhead`.

=== FILE: controller.dfy ===
/** The bird loop of a tick: each living bird asks its network whether to
    flap, moves, and has its fitness reported to the evolution engine when
    the move kills it. */
module Controller {
  import opened Entities

  /** The two network inputs: vertical offset to the target over the height,
      horizontal distance to the target over the width. */
  function Inputs(c: Config, b: Bird, t: Point): (real, real)
    requires WellFormed(c)
  {
    ((b.y - t.y) / c.height as real, (t.x - b.x) / c.width as real)
  }

  /** One living bird's turn: flap when the network's output exceeds 0.5,
      then let the bird update itself against the current pipes. */
  function ControlBird(c: Config, k: Collaborators, b: Bird, net: Network, t: Point, pipes: seq<Pipe>): Bird
    requires WellFormed(c)
  {
    var (dy, dx) := Inputs(c, b, t);
    var flapped := if k.compute(net, dy, dx) > 0.5 then k.flap(b) else b;
    k.updateBird(flapped, pipes)
  }

  /** Bird i after its iteration of the loop: birds are only driven while
      the generation and the birds have the same length, and only when alive. */
  function Driven(c: Config, k: Collaborators, birds: seq<Bird>, gen: seq<Network>, t: Point,
                  pipes: seq<Pipe>, i: nat): Bird
    requires WellFormed(c) && i < |birds|
  {
    if |gen| == |birds| && birds[i].alive then ControlBird(c, k, birds[i], gen[i], t, pipes)
    else birds[i]
  }

  /** The birds after the loop: dead birds are never touched, and nothing
      moves when the length guard fails. */
  function FlyBirds(c: Config, k: Collaborators, birds: seq<Bird>, gen: seq<Network>, t: Point, pipes: seq<Pipe>)
    : (r: seq<Bird>)
    requires WellFormed(c)
    ensures |r| == |birds|
    ensures forall i :: 0 <= i < |birds| && !birds[i].alive ==> r[i] == birds[i]
    ensures |gen| != |birds| ==> r == birds
  {
    seq(|birds|, i requires 0 <= i < |birds| => Driven(c, k, birds, gen, t, pipes, i))
  }

  /** The indices below `n` of the birds that were alive in `before` and are
      dead in `after`, in ascending order. */
  function DeathsBelow(before: seq<Bird>, after: seq<Bird>, n: nat): (d: seq<nat>)
    requires |before| == |after| && n <= |before|
    ensures |d| <= n
    ensures forall j :: 0 <= j < |d| ==> d[j] < n && before[d[j]].alive && !after[d[j]].alive
    ensures forall i :: 0 <= i < n && before[i].alive && !after[i].alive ==> i in d
    ensures forall j1, j2 :: 0 <= j1 < j2 < |d| ==> d[j1] < d[j2]
  {
    if n == 0 then []
    else DeathsBelow(before, after, n - 1) + (if before[n - 1].alive && !after[n - 1].alive then [n - 1] else [])
  }

  /** The birds that were alive in `before` and are dead in `after`. */
  function Deaths(before: seq<Bird>, after: seq<Bird>): (d: seq<nat>)
    requires |before| == |after|
    ensures |d| <= |before|
    ensures forall j :: 0 <= j < |d| ==> d[j] < |before| && before[d[j]].alive && !after[d[j]].alive
    ensures forall i :: 0 <= i < |before| && before[i].alive && !after[i].alive ==> i in d
    ensures forall j1, j2 :: 0 <= j1 < j2 < |d| ==> d[j1] < d[j2]
  {
    DeathsBelow(before, after, |before|)
  }

  /** The `networkScore` calls for the birds listed in `died`, in that order,
      each with the score the tick started with. */
  function Reports(gen: seq<Network>, died: seq<nat>, score: int): seq<EngineCall>
    requires forall j :: 0 <= j < |died| ==> died[j] < |gen|
  {
    seq(|died|, j requires 0 <= j < |died| => NetworkScore(gen[died[j]], score))
  }

  /** The reports for the first n birds extend those for the first n - 1 by
      one call exactly when bird n - 1 dies. */
  lemma ReportsSnoc(gen: seq<Network>, before: seq<Bird>, after: seq<Bird>, n: nat, score: int)
    requires |gen| == |before| == |after| && 0 < n <= |before|
    ensures Reports(gen, DeathsBelow(before, after, n), score)
         == Reports(gen, DeathsBelow(before, after, n - 1), score)
          + (if before[n - 1].alive && !after[n - 1].alive then [NetworkScore(gen[n - 1], score)] else [])
  {
  }

  /** The `networkScore` calls the loop has made after its first `n`
      iterations, built up one iteration at a time. */
  function ReportsBelow(gen: seq<Network>, before: seq<Bird>, after: seq<Bird>, n: nat, score: int)
    : seq<EngineCall>
    requires |gen| == |before| == |after| && n <= |before|
  {
    if n == 0 then []
    else
      var call := if before[n - 1].alive && !after[n - 1].alive then [NetworkScore(gen[n - 1], score)] else [];
      ReportsBelow(gen, before, after, n - 1, score) + call
  }

  /** Built up one iteration at a time, the calls are the reports of the
      deaths among the first `n` birds. */
  lemma {:induction false} ReportsBelowIsReports(gen: seq<Network>, before: seq<Bird>, after: seq<Bird>,
                                                 n: nat, score: int)
    requires |gen| == |before| == |after| && n <= |before|
    ensures ReportsBelow(gen, before, after, n, score) == Reports(gen, DeathsBelow(before, after, n), score)
  {
    if n > 0 {
      ReportsBelowIsReports(gen, before, after, n - 1, score);
      ReportsSnoc(gen, before, after, n, score);
    }
  }

  /** The calls of the first `n` iterations only depend on the first `n`
      birds of `after`. */
  lemma {:induction false} ReportsBelowFrame(gen: seq<Network>, before: seq<Bird>, a1: seq<Bird>, a2: seq<Bird>,
                                             n: nat, score: int)
    requires |gen| == |before| == |a1| == |a2| && n <= |before|
    requires forall j :: 0 <= j < n ==> a1[j] == a2[j]
    ensures ReportsBelow(gen, before, a1, n, score) == ReportsBelow(gen, before, a2, n, score)
  {
    if n > 0 {
      ReportsBelowFrame(gen, before, a1, a2, n - 1, score);
    }
  }

  /** Replacing bird i extends the calls of the first i iterations by one
      exactly when the replacement is a death. */
  lemma ReportsStep(gen: seq<Network>, before: seq<Bird>, after: seq<Bird>, i: nat, b: Bird, score: int)
    requires |gen| == |before| == |after| && i < |before|
    ensures ReportsBelow(gen, before, after[i := b], i + 1, score)
         == ReportsBelow(gen, before, after, i, score)
          + (if before[i].alive && !b.alive then [NetworkScore(gen[i], score)] else [])
  {
    ReportsBelowFrame(gen, before, after, after[i := b], i, score);
  }

  /** The body of the bird loop for one bird, statement by statement: a
      living bird asks the network, flaps above 0.5, updates, and has its
      network reported with the current score when the update killed it. */
  method VisitBird(c: Config, k: Collaborators, b: Bird, net: Network, t: Point, pipes: seq<Pipe>, score: int)
    returns (moved: Bird, report: seq<EngineCall>)
    requires WellFormed(c)
    ensures moved == if b.alive then ControlBird(c, k, b, net, t, pipes) else b
    ensures report == if b.alive && !moved.alive then [NetworkScore(net, score)] else []
  {
    moved := b;
    report := [];
    if b.alive {
      var (dy, dx) := Inputs(c, b, t);
      var output := k.compute(net, dy, dx);
      if output > 0.5 {
        moved := k.flap(moved);
      }
      moved := k.updateBird(moved, pipes);
      if !moved.alive {
        report := [NetworkScore(net, score)];
      }
    }
  }

  /** Birds that are each driven as the loop drives them are the birds the
      loop leaves. */
  lemma DrivenAll(c: Config, k: Collaborators, birds: seq<Bird>, gen: seq<Network>, t: Point,
                  pipes: seq<Pipe>, flown: seq<Bird>)
    requires WellFormed(c) && |flown| == |birds|
    requires forall j :: 0 <= j < |birds| ==> flown[j] == Driven(c, k, birds, gen, t, pipes, j)
    ensures flown == FlyBirds(c, k, birds, gen, t, pipes)
  {
  }

  /** The bird loop as js/game.js writes it, one index at a time, appending
      a `networkScore` call right after the update that kills a bird. */
  method UpdateBirds(c: Config, k: Collaborators, birds: seq<Bird>, gen: seq<Network>, t: Point,
                     pipes: seq<Pipe>, score: int)
    returns (flown: seq<Bird>, reports: seq<EngineCall>)
    requires WellFormed(c)
    ensures flown == FlyBirds(c, k, birds, gen, t, pipes)
    ensures |gen| == |birds| ==> reports == Reports(gen, Deaths(birds, flown), score)
    ensures |gen| != |birds| ==> reports == []
  {
    flown := birds;
    reports := [];
    var i := 0;
    while i < |birds|
      invariant 0 <= i <= |birds| == |flown|
      invariant forall j :: 0 <= j < i ==> flown[j] == Driven(c, k, birds, gen, t, pipes, j)
      invariant forall j :: i <= j < |birds| ==> flown[j] == birds[j]
      invariant |gen| == |birds| ==> reports == ReportsBelow(gen, birds, flown, i, score)
      invariant |gen| != |birds| ==> reports == []
    {
      if |gen| == |birds| {
        var moved, report := VisitBird(c, k, flown[i], gen[i], t, pipes, score);
        ReportsStep(gen, birds, flown, i, moved, score);
        flown := flown[i := moved];
        reports := reports + report;
      }
      i := i + 1;
    }
    DrivenAll(c, k, birds, gen, t, pipes, flown);
    if |gen| == |birds| {
      ReportsBelowIsReports(gen, birds, flown, |birds|, score);
    }
  }
}

=== FILE: entities.dfy ===
/** The records the tick loop of js/game.js reads and writes, and the
    collaborators it calls but does not own (bird.js, pipe.js, the network
    and the neuro-evolution engine). Every collaborator is a total function
    supplied by the caller. The game logic is modelled up to the abstractions
    listed in README.md (exact reals for numbers, whole-number dimensions),
    and the collaborators are general apart from being deterministic: every
    new bird is the same value `newBird`, and the first generation after a
    reset is the same list of networks. */
module Entities {

  datatype Option<+T> = None | Some(value: T)

  /** A bird as the game loop sees it. The game only reads the position and
      the `alive` flag; `velocity` stands for the physics state bird.js keeps. */
  datatype Bird = Bird(x: real, y: real, velocity: real, alive: bool)

  /** One pipe of a pair: `top` is the pipe above the gap, `out` is set by the
      pipe itself once it has left the playfield. */
  datatype Pipe = Pipe(x: real, y: real, top: bool, out: bool)

  datatype Point = Point(x: real, y: real)

  /** Handle of one network held by the evolution engine. */
  datatype Network = Network(id: nat)

  /** A call the game makes on the evolution engine. */
  datatype EngineCall =
    | RestartEngine
    | NextGeneration
    | NetworkScore(network: Network, score: int)

  /** The evolution engine, seen through its population size and the calls
      made on it since it was constructed. */
  datatype Engine = Engine(population: int, calls: seq<EngineCall>)

  /** The configuration values the tick loop reads. `pipeWidth` and
      `pipeHeight` are the dimensions of the top pipe image. */
  datatype Config = Config(
    width: int,
    height: int,
    tps: int,
    pipeSpawnRate: real,
    holeSize: int,
    birdX: int,
    generationSize: int,
    pipeWidth: int,
    pipeHeight: int)

  /** Width, height and tps are positive, so the divisions of a tick (by
      width, height and tps) are well defined. */
  predicate WellFormed(c: Config) {
    c.width > 0 && c.height > 0 && c.tps > 0
  }

  /** What the unseen collaborators do, as functions of their inputs:
      `new Bird(...)`, `bird.flap()`, `bird.update(pipes)`, `pipe.update()`,
      `network.compute(inputs)` and `neuro_evolution.nextGeneration()`, whose
      result may depend on every call made on the engine so far. */
  datatype Collaborators = Collaborators(
    newBird: Bird,
    flap: Bird -> Bird,
    updateBird: (Bird, seq<Pipe>) -> Bird,
    updatePipe: Pipe -> Pipe,
    compute: (Network, real, real) -> real,
    nextGeneration: Engine -> seq<Network>)
}

=== FILE: game.dfy ===
/** The `Game` class of js/game.js without its canvas, images and timers:
    one tick of `update`, `restart`, `reset`, and the flap and pause keys. */
module GameLoop {
  import opened Entities
  import opened Spawner
  import opened Targeting
  import opened Controller

  /** The mutable fields of a game that the tick loop reads or writes. */
  datatype Game = Game(
    birds: seq<Bird>,
    pipes: seq<Pipe>,
    generation: seq<Network>,
    score: int,
    highScore: int,
    interval: int,
    target: Point,
    generationCount: int,
    paused: bool,
    engine: Engine)

  /** What one call of `update` leaves behind. `NoPipeAhead` is the state at
      the moment the nearest-pipe lookup finds no pipe: the JavaScript then
      reads a property of `undefined`, the exception leaves `update` before it
      re-arms its timer, and the simulation stops in that state. */
  datatype TickResult = Ticked(game: Game) | NoPipeAhead(game: Game)

  /** Math.max on integers. */
  function Max(a: int, b: int): (m: int)
    ensures m >= a && m >= b && (m == a || m == b)
  {
    if a >= b then a else b
  }

  predicate AnyAlive(birds: seq<Bird>) {
    exists i :: 0 <= i < |birds| && birds[i].alive
  }

  /** The birds as the bird loop of a tick leaves them. */
  function BirdsAfterLoop(c: Config, k: Collaborators, g: Game): (r: seq<Bird>)
    requires WellFormed(c)
    ensures |r| == |g.birds|
  {
    FlyBirds(c, k, g.birds, g.generation, g.target, g.pipes)
  }

  /** The indices of the birds the bird loop of a tick kills. */
  function TickDeaths(c: Config, k: Collaborators, g: Game): (d: seq<nat>)
    requires WellFormed(c)
    ensures forall j :: 0 <= j < |d| ==> d[j] < |g.birds|
  {
    Deaths(g.birds, BirdsAfterLoop(c, k, g))
  }

  /** The `networkScore` calls the bird loop of a tick makes. */
  function TickReports(c: Config, k: Collaborators, g: Game): (r: seq<EngineCall>)
    requires WellFormed(c)
    ensures |r| <= |g.birds|
  {
    if |g.generation| == |g.birds| then Reports(g.generation, TickDeaths(c, k, g), g.score)
    else []
  }

  /** An unpaused tick up to, and not including, the restart check: birds,
      pipe sweep, score, spawn, spawn counter, target. `u` is the value
      Math.random returns if a pair is spawned. */
  function Advance(c: Config, k: Collaborators, g: Game, u: real): (r: TickResult)
    requires WellFormed(c)
    ensures r.game.score == g.score + 1
    ensures r.game.highScore == Max(g.highScore, g.score + 1)
    ensures |r.game.birds| == |g.birds|
    ensures r.game.generation == g.generation
    ensures r.game.generationCount == g.generationCount
    ensures r.game.paused == g.paused
    ensures r.game.interval == NextInterval(c, g.interval)
    ensures forall i :: 0 <= i < |g.birds| && !g.birds[i].alive ==> r.game.birds[i] == g.birds[i]
    ensures r.game.engine.population == g.engine.population
    ensures g.engine.calls <= r.game.engine.calls
    ensures r.NoPipeAhead? ==> r.game.target == g.target
    ensures r.Ticked? <==> Nearest(c, r.game.pipes).Some?
    ensures r.Ticked? ==> r.game.target == TargetOf(c, r.game.pipes[Nearest(c, r.game.pipes).value])
  {
    var birds := BirdsAfterLoop(c, k, g);
    var swept := Sweep(k.updatePipe, g.pipes);
    var score := g.score + 1;
    var pipes := if g.interval == 0 then swept + SpawnPair(c, HolePosition(c, u)) else swept;
    var h := g.(birds := birds,
                pipes := pipes,
                score := score,
                highScore := Max(score, g.highScore),
                interval := NextInterval(c, g.interval),
                engine := g.engine.(calls := g.engine.calls + TickReports(c, k, g)));
    match Nearest(c, pipes)
    case None => NoPipeAhead(h)
    case Some(j) => Ticked(h.(target := TargetOf(c, pipes[j])))
  }

  /** `restart`: a new generation from the engine, one fresh bird per network,
      no pipes, score and spawn counter back to 0, one more generation. */
  function Restart(c: Config, k: Collaborators, g: Game): (r: Game)
    ensures |r.birds| == |r.generation|
    ensures forall i :: 0 <= i < |r.birds| ==> r.birds[i] == k.newBird
    ensures r.pipes == [] && r.score == 0 && r.interval == 0
    ensures r.generationCount == g.generationCount + 1
    ensures r.highScore == g.highScore && r.target == g.target && r.paused == g.paused
    ensures r.generation == k.nextGeneration(g.engine)
    ensures r.engine.calls == g.engine.calls + [NextGeneration]
    ensures r.engine.population == g.engine.population
  {
    var gen := k.nextGeneration(g.engine);
    g.(birds := seq(|gen|, _ => k.newBird),
       pipes := [],
       generation := gen,
       score := 0,
       interval := 0,
       generationCount := g.generationCount + 1,
       engine := g.engine.(calls := g.engine.calls + [NextGeneration]))
  }

  /** `reset`: a fresh engine told to restart, no networks, high score and
      generation counter back to 0. Birds, pipes, score and spawn counter are
      left as they are until the `restart` that always follows. */
  function Reset(c: Config, g: Game): (r: Game)
    ensures r.highScore == 0 && r.generationCount == 0 && r.generation == []
    ensures r.engine.calls == [RestartEngine] && r.engine.population == c.generationSize
    ensures r.birds == g.birds && r.pipes == g.pipes && r.score == g.score
    ensures r.interval == g.interval && r.target == g.target && r.paused == g.paused
  {
    g.(highScore := 0,
       generation := [],
       generationCount := 0,
       engine := Engine(c.generationSize, [RestartEngine]))
  }

  /** `reset` followed by `restart`, as the game start and the reset button do. */
  function Start(c: Config, k: Collaborators, g: Game): Game {
    Restart(c, k, Reset(c, g))
  }

  /** One call of `update`: nothing happens while paused; otherwise the tick
      is advanced and, when no bird is left alive, the game restarts. */
  function Tick(c: Config, k: Collaborators, g: Game, u: real): (r: TickResult)
    requires WellFormed(c)
    ensures g.paused ==> r == Ticked(g)
    ensures r.game.highScore >= g.highScore
    ensures r.game.generationCount == g.generationCount
         || r.game.generationCount == g.generationCount + 1
  {
    if g.paused then Ticked(g)
    else
      match Advance(c, k, g, u)
      case NoPipeAhead(h) => NoPipeAhead(h)
      case Ticked(h) => Ticked(if AnyAlive(h.birds) then h else Restart(c, k, h))
  }

  /** The pause key. */
  function TogglePause(g: Game): Game {
    g.(paused := !g.paused)
  }

  /** The flap key: while some bird lives and the game runs, every living
      bird flaps; otherwise nothing changes. */
  function PlayerFlap(k: Collaborators, g: Game): (r: Game)
    ensures |r.birds| == |g.birds|
    ensures forall i :: 0 <= i < |g.birds| ==>
              r.birds[i] == (if g.birds[i].alive && !g.paused then k.flap(g.birds[i]) else g.birds[i])
    ensures r.(birds := g.birds) == g
  {
    if AnyAlive(g.birds) && !g.paused then
      g.(birds := seq(|g.birds|, i requires 0 <= i < |g.birds| =>
                        if g.birds[i].alive then k.flap(g.birds[i]) else g.birds[i]))
    else g
  }

  /** What holds between ticks once a game has started: the bird loop's
      length guard is met, the score never exceeds the high score, and the
      spawn counter stays below the spawn period. */
  predicate Inv(c: Config, g: Game) {
    && |g.birds| == |g.generation|
    && 0 <= g.score <= g.highScore
    && 0 <= g.interval < Period(c)
    && g.generationCount >= 1
  }

  lemma StartEstablishesInv(c: Config, k: Collaborators, g: Game)
    requires RegularCadence(c)
    ensures Inv(c, Start(c, k, g))
    ensures Start(c, k, g).highScore == 0 && Start(c, k, g).generationCount == 1
    ensures Start(c, k, g).engine.calls == [RestartEngine, NextGeneration]
  {
  }

  lemma TickPreservesInv(c: Config, k: Collaborators, g: Game, u: real)
    requires WellFormed(c) && RegularCadence(c)
    requires Inv(c, g)
    ensures Inv(c, Tick(c, k, g, u).game)
  {
    if !g.paused {
      NextIntervalWraps(c, g.interval);
    }
  }

  /** Score bookkeeping of a running tick: the score goes up by exactly one
      and the high score becomes the larger of itself and the new score; a
      restart then puts the score back to 0 and keeps the high score. */
  lemma TickScores(c: Config, k: Collaborators, g: Game, u: real)
    requires WellFormed(c) && !g.paused
    ensures var h := Tick(c, k, g, u).game;
            && h.highScore == Max(g.highScore, g.score + 1)
            && (if h.generationCount == g.generationCount then h.score == g.score + 1 else h.score == 0)
  {
  }

  /** A tick restarts the game, which shows as one more generation, exactly
      when it runs, finds a pipe ahead, and leaves no bird alive. */
  lemma RestartOnlyWhenAllDead(c: Config, k: Collaborators, g: Game, u: real)
    requires WellFormed(c)
    ensures Tick(c, k, g, u).game.generationCount == g.generationCount + 1
        <==> !g.paused && Advance(c, k, g, u).Ticked? && !AnyAlive(BirdsAfterLoop(c, k, g))
  {
  }

  /** A restarting tick asks the engine for the next generation only after
      the bird loop has reported this tick's deaths: the engine sees the
      reports, and the log ends with them followed by `nextGeneration`. */
  lemma RestartAfterReports(c: Config, k: Collaborators, g: Game, u: real)
    requires WellFormed(c)
    requires Tick(c, k, g, u).game.generationCount == g.generationCount + 1
    ensures var h := Tick(c, k, g, u).game;
            var reported := g.engine.(calls := g.engine.calls + TickReports(c, k, g));
            && h.generation == k.nextGeneration(reported)
            && h.engine.calls == g.engine.calls + TickReports(c, k, g) + [NextGeneration]
            && |h.birds| == |h.generation|
  {
  }

  /** A spawn does not move the target while a swept pipe is still ahead:
      the new pair is appended behind it. */
  lemma SpawnKeepsTargetAhead(c: Config, k: Collaborators, g: Game, u: real)
    requires WellFormed(c)
    requires Nearest(c, Sweep(k.updatePipe, g.pipes)).Some?
    ensures var swept := Sweep(k.updatePipe, g.pipes);
            && Advance(c, k, g, u).Ticked?
            && Advance(c, k, g, u).game.target == TargetOf(c, swept[Nearest(c, swept).value])
  {
    var swept := Sweep(k.updatePipe, g.pipes);
    if g.interval == 0 {
      var pair := SpawnPair(c, HolePosition(c, u));
      NearestStableUnderAppend(c, swept, pair);
      assert (swept + pair)[Nearest(c, swept).value] == swept[Nearest(c, swept).value];
    }
  }

  /** A running tick that does not restart is `Advance` alone. */
  lemma TickWithoutRestart(c: Config, k: Collaborators, g: Game, u: real)
    requires WellFormed(c) && !g.paused
    requires Tick(c, k, g, u).game.generationCount == g.generationCount
    ensures Tick(c, k, g, u) == Advance(c, k, g, u)
  {
  }

  /** A tick spawns a pair, at the right edge and with the gap drawn from
      `u`, exactly when the spawn counter is 0 as the tick begins; the
      pipes before it are those the sweep kept. */
  lemma SpawnExactlyAtIntervalZero(c: Config, k: Collaborators, g: Game, u: real)
    requires WellFormed(c)
    ensures Advance(c, k, g, u).game.pipes
         == Sweep(k.updatePipe, g.pipes) + (if g.interval == 0 then SpawnPair(c, HolePosition(c, u)) else [])
  {
  }

  /** `Advance` leaves the birds as the bird loop does; the restart check
      is the only later step that replaces them. */
  lemma AdvanceMovesBirds(c: Config, k: Collaborators, g: Game, u: real)
    requires WellFormed(c)
    ensures Advance(c, k, g, u).game.birds == BirdsAfterLoop(c, k, g)
  {
  }

  /** The birds move on the target of the previous tick and the pipes as
      they were before this tick's sweep: a living bird is fed
      ((y - target.y) / height, (target.x - x) / width), flaps when its
      network answers more than 0.5, then updates. */
  lemma AliveBirdSteersByLastTarget(c: Config, k: Collaborators, g: Game, i: int)
    requires WellFormed(c)
    requires |g.generation| == |g.birds| && 0 <= i < |g.birds| && g.birds[i].alive
    ensures var b := g.birds[i];
            var out := k.compute(g.generation[i], (b.y - g.target.y) / c.height as real,
                                 (g.target.x - b.x) / c.width as real);
            BirdsAfterLoop(c, k, g)[i] == k.updateBird(if out > 0.5 then k.flap(b) else b, g.pipes)
  {
  }

  /** The engine log of a tick grows by one `networkScore` call per bird that
      this tick killed, in index order, each with the score before the tick's
      increment; when the length guard fails nothing is reported. */
  lemma ReportsOnTick(c: Config, k: Collaborators, g: Game, u: real)
    requires WellFormed(c)
    ensures var h := Advance(c, k, g, u).game;
            var died := Deaths(g.birds, h.birds);
            && |h.engine.calls| == |g.engine.calls| + (if |g.generation| == |g.birds| then |died| else 0)
            && h.engine.calls[..|g.engine.calls|] == g.engine.calls
            && (|g.generation| == |g.birds| ==>
                  forall j :: 0 <= j < |died| ==>
                    h.engine.calls[|g.engine.calls| + j] == NetworkScore(g.generation[died[j]], g.score))
  {
  }

  /** A tick that starts with the counter at 0 spawns a pair at the right
      edge, so with the right edge ahead of the birds it always finds a pipe
      to steer to: the lookup never fails on such a tick. */
  lemma SpawnTickFindsPipe(c: Config, k: Collaborators, g: Game, u: real)
    requires WellFormed(c)
    requires g.interval == 0
    requires c.width + c.pipeWidth > c.birdX
    ensures Advance(c, k, g, u).Ticked?
  {
    var swept := Sweep(k.updatePipe, g.pipes);
    var pipes := swept + SpawnPair(c, HolePosition(c, u));
    NearestExistsWhenOneAhead(c, pipes, |swept|);
  }

  /** When the new pair is the first pipe ahead, the target is the centre of
      its gap: half a pipe width right of the edge, half a gap below the
      drawn gap position, which lies in [50, height - 50 - holeSize]. */
  lemma SpawnedGapIsTarget(c: Config, k: Collaborators, g: Game, u: real)
    requires WellFormed(c) && 0.0 <= u < 1.0 && Span(c) >= 0
    requires g.interval == 0
    requires c.width + c.pipeWidth > c.birdX
    requires Nearest(c, Sweep(k.updatePipe, g.pipes)).None?
    ensures var hole := HolePosition(c, u);
            && DeltaBoard <= hole <= c.height - DeltaBoard - c.holeSize
            && Advance(c, k, g, u).game.target
               == Point(c.width as real + c.pipeWidth as real / 2.0,
                        hole as real + c.holeSize as real / 2.0)
  {
    var swept := Sweep(k.updatePipe, g.pipes);
    var pair := SpawnPair(c, HolePosition(c, u));
    HoleInRange(c, u);
    SpawnExactlyAtIntervalZero(c, k, g, u);
    NearestPastPrefix(c, swept, pair);
    assert (swept + pair)[|swept|] == pair[0];
  }

  /** Pressing pause twice gives back the game as it was. */
  lemma TogglePauseTwice(g: Game)
    ensures TogglePause(TogglePause(g)) == g
    ensures TogglePause(g).paused != g.paused
  {
  }
}

=== FILE: runs.dfy ===
/** Properties of successive calls of `update`: across a pause, and across
    the ticks of one generation. */
module Runs {
  import opened Entities
  import opened Spawner
  import opened Controller
  import opened GameLoop

  /** Successive calls of `update` with the draws `us`, stopping for good at
      the first tick that finds no pipe ahead. */
  function RunTicks(c: Config, k: Collaborators, g: Game, us: seq<real>): (r: TickResult)
    requires WellFormed(c)
    ensures r.game.highScore >= g.highScore
    ensures r.game.generationCount >= g.generationCount
    decreases |us|
  {
    if us == [] then Ticked(g)
    else
      match Tick(c, k, g, us[0])
      case NoPipeAhead(h) => NoPipeAhead(h)
      case Ticked(h) => RunTicks(c, k, h, us[1..])
  }

  /** However many ticks fire while the game is paused, nothing changes. */
  lemma {:induction false} PausedRunFreezes(c: Config, k: Collaborators, g: Game, us: seq<real>)
    requires WellFormed(c) && g.paused
    ensures RunTicks(c, k, g, us) == Ticked(g)
    decreases |us|
  {
    if us != [] {
      PausedRunFreezes(c, k, g, us[1..]);
    }
  }

  /** Pausing, letting any number of ticks fire, and unpausing gives back
      exactly the game that was paused. */
  lemma PauseResume(c: Config, k: Collaborators, g: Game, us: seq<real>)
    requires WellFormed(c) && !g.paused
    ensures TogglePause(RunTicks(c, k, TogglePause(g), us).game) == g
  {
    PausedRunFreezes(c, k, TogglePause(g), us);
  }

  /** The spawn counter after `n` ticks of one generation starting from `i`. */
  function IntervalAfter(c: Config, i: int, n: nat): int
    requires c.tps > 0
  {
    if n == 0 then i else NextInterval(c, IntervalAfter(c, i, n - 1))
  }

  /** With a regular cadence the counter never leaves [0, Period). */
  lemma {:induction false} IntervalAfterInRange(c: Config, i: int, n: nat)
    requires RegularCadence(c) && 0 <= i < Period(c)
    ensures 0 <= IntervalAfter(c, i, n) < Period(c)
  {
    if n > 0 {
      IntervalAfterInRange(c, i, n - 1);
      NextIntervalWraps(c, IntervalAfter(c, i, n - 1));
    }
  }

  /** From a 0 the counter counts 0, 1, 2, ... up to Period - 1. */
  lemma {:induction false} CountsUpFromZero(c: Config, i: int, t: nat, d: nat)
    requires RegularCadence(c)
    requires IntervalAfter(c, i, t) == 0 && d < Period(c)
    ensures IntervalAfter(c, i, t + d) == d
  {
    if d > 0 {
      CountsUpFromZero(c, i, t, d - 1);
      NextIntervalWraps(c, d - 1);
    }
  }

  /** Once the counter is 0 it is 0 again exactly `Period` ticks later and at
      no tick in between: spawns are exactly one period apart. */
  lemma SpawnCounterPeriodic(c: Config, i: int, t: nat)
    requires RegularCadence(c)
    requires IntervalAfter(c, i, t) == 0
    ensures IntervalAfter(c, i, t + Period(c)) == 0
    ensures forall s: nat :: t < s < t + Period(c) ==> IntervalAfter(c, i, s) != 0
  {
    var p := Period(c);
    CountsUpFromZero(c, i, t, p - 1);
    NextIntervalWraps(c, p - 1);
    forall s: nat | t < s < t + p
      ensures IntervalAfter(c, i, s) != 0
    {
      CountsUpFromZero(c, i, t, s - t);
    }
  }

  /** `states` are the games seen across successive running ticks of one
      generation: none of them paused, restarted or stopped. */
  ghost predicate SameGeneration(c: Config, k: Collaborators, states: seq<Game>, us: seq<real>)
    requires WellFormed(c)
  {
    && |states| == |us| + 1
    && forall t :: 0 <= t < |us| ==>
         && !states[t].paused
         && Tick(c, k, states[t], us[t]) == Ticked(states[t + 1])
         && states[t + 1].generationCount == states[t].generationCount
  }

  /** Along one generation the counter follows `IntervalAfter`. */
  lemma {:induction false} IntervalsAlongGeneration(c: Config, k: Collaborators, states: seq<Game>, us: seq<real>, t: nat)
    requires WellFormed(c) && SameGeneration(c, k, states, us)
    requires t < |states|
    ensures states[t].interval == IntervalAfter(c, states[0].interval, t)
  {
    if t > 0 {
      IntervalsAlongGeneration(c, k, states, us, t - 1);
      assert Tick(c, k, states[t - 1], us[t - 1]) == Ticked(states[t]);
      TickWithoutRestart(c, k, states[t - 1], us[t - 1]);
    }
  }

  /** Tick `t` of a generation spawns a pair exactly when the counter, which
      starts the generation at `states[0].interval`, is 0 after `t` ticks. */
  lemma SpawnsAlongGeneration(c: Config, k: Collaborators, states: seq<Game>, us: seq<real>, t: nat)
    requires WellFormed(c) && SameGeneration(c, k, states, us)
    requires t < |us|
    ensures states[t + 1].pipes
         == Sweep(k.updatePipe, states[t].pipes)
          + (if IntervalAfter(c, states[0].interval, t) == 0 then SpawnPair(c, HolePosition(c, us[t])) else [])
  {
    IntervalsAlongGeneration(c, k, states, us, t);
    assert Tick(c, k, states[t], us[t]) == Ticked(states[t + 1]);
    TickWithoutRestart(c, k, states[t], us[t]);
    SpawnExactlyAtIntervalZero(c, k, states[t], us[t]);
  }

  /** Along one generation a dead bird stays exactly as it died. */
  lemma {:induction false} DeadStaysDead(c: Config, k: Collaborators, states: seq<Game>, us: seq<real>,
                                         i: int, t1: nat, t2: nat)
    requires WellFormed(c) && SameGeneration(c, k, states, us)
    requires t1 <= t2 < |states|
    requires 0 <= i < |states[t1].birds| && !states[t1].birds[i].alive
    ensures i < |states[t2].birds| && states[t2].birds[i] == states[t1].birds[i]
    decreases t2 - t1
  {
    if t1 < t2 {
      assert Tick(c, k, states[t1], us[t1]) == Ticked(states[t1 + 1]);
      TickWithoutRestart(c, k, states[t1], us[t1]);
      DeadStaysDead(c, k, states, us, i, t1 + 1, t2);
    }
  }

  /** Along one generation each bird is reported to the engine on at most one
      tick: the tick whose bird loop kills it. */
  lemma ReportedAtMostOnce(c: Config, k: Collaborators, states: seq<Game>, us: seq<real>,
                           i: int, t1: nat, t2: nat)
    requires WellFormed(c) && SameGeneration(c, k, states, us)
    requires t1 < t2 < |states|
    ensures !(i in TickDeaths(c, k, states[t1]) && i in TickDeaths(c, k, states[t2]))
  {
    if i in TickDeaths(c, k, states[t1]) {
      assert Tick(c, k, states[t1], us[t1]) == Ticked(states[t1 + 1]);
      TickWithoutRestart(c, k, states[t1], us[t1]);
      AdvanceMovesBirds(c, k, states[t1], us[t1]);
      assert !states[t1 + 1].birds[i].alive;
      DeadStaysDead(c, k, states, us, i, t1 + 1, t2);
    }
  }
}

=== FILE: spawner.dfy ===
/** Pipe bookkeeping of one tick: the sweep that moves pipes and drops the
    expired ones, the placement of a new pair, and the spawn counter. */
module Spawner {
  import opened Entities

  /** Distance kept between a gap and the top or bottom of the playfield. */
  const DeltaBoard: int := 50

  /** JavaScript's Math.round: the nearest integer, halves rounded up. */
  function Round(x: real): (r: int)
    ensures r as real - 0.5 <= x < r as real + 0.5
  {
    (x + 0.5).Floor
  }

  /** How far the random draw can move the gap: the height less both margins
      and the gap itself. */
  function Span(c: Config): int {
    c.height - DeltaBoard * 2 - c.holeSize
  }

  /** Top edge of the gap for a draw `u` of Math.random. */
  function HolePosition(c: Config, u: real): int {
    Round(u * Span(c) as real) + DeltaBoard
  }

  /** The rounded draw lies in [0, Span], so the gap lies in
      [50, height - 50 - holeSize]. */
  lemma HoleInRange(c: Config, u: real)
    requires 0.0 <= u < 1.0
    requires Span(c) >= 0
    ensures 0 <= HolePosition(c, u) - DeltaBoard <= Span(c)
    ensures DeltaBoard <= HolePosition(c, u) <= c.height - DeltaBoard - c.holeSize
  {
    var s := Span(c) as real;
    assert 0.0 <= u * s <= s by {
      assert u * s <= 1.0 * s;
    }
    var r := Round(u * s);
    assert r as real <= s + 0.5;
    assert r <= Span(c);
    assert HolePosition(c, u) == r + DeltaBoard;
  }

  /** Conversely every gap position in that range is produced by some draw. */
  lemma EveryHoleReachable(c: Config, h: int) returns (u: real)
    requires DeltaBoard <= h <= c.height - DeltaBoard - c.holeSize
    ensures 0.0 <= u < 1.0
    ensures HolePosition(c, u) == h
  {
    var r := h - DeltaBoard;
    var s := Span(c) as real;
    if r == 0 {
      u := 0.0;
      assert u * s == 0.0;
    } else {
      assert 1.0 <= r as real <= s;
      var x := r as real - 0.25;
      u := x / s;
      DivideBelow(x, s);
      RoundOf(u * s, r);
    }
  }

  /** Dividing by `s` and multiplying back gives `x`; below `s` the quotient
      is below 1. */
  lemma DivideBelow(x: real, s: real)
    requires 0.0 < x < s
    ensures (x / s) * s == x
    ensures 0.0 <= x / s < 1.0
  {
    var q := x / s;
    assert q * s == x;
    assert (q - 1.0) * s == x - s;
    assert q >= 1.0 ==> (q - 1.0) * s >= 0.0;
  }

  /** The integer within half of `x` is `Round(x)`. */
  lemma RoundOf(x: real, r: int)
    requires r as real - 0.5 <= x < r as real + 0.5
    ensures Round(x) == r
  {
  }

  /** The two pipes of a new pair, both at the right edge of the playfield:
      the top pipe ends at `hole`, the bottom pipe starts `holeSize` lower. */
  function SpawnPair(c: Config, hole: int): (r: seq<Pipe>)
    ensures |r| == 2 && r[0].top && !r[1].top
    ensures r[0].x == r[1].x == c.width as real
    ensures !r[0].out && !r[1].out
    ensures r[0].y + c.pipeHeight as real == hole as real
    ensures r[1].y - (r[0].y + c.pipeHeight as real) == c.holeSize as real
  {
    [ Pipe(c.width as real, (hole - c.pipeHeight) as real, true, false),
      Pipe(c.width as real, (hole + c.holeSize) as real, false, false) ]
  }

  /** The spawn counter after one tick: incremented, and reset to 0 when the
      elapsed seconds `interval / tps` equal the spawn rate. */
  function NextInterval(c: Config, i: int): int
    requires c.tps > 0
  {
    if (i + 1) as real / c.tps as real == c.pipeSpawnRate then 0 else i + 1
  }

  /** Ticks between two spawns, when the spawn rate is a whole number of ticks. */
  function Period(c: Config): int {
    (c.pipeSpawnRate * c.tps as real).Floor
  }

  /** `pipeSpawnRate * tps` is a positive whole number of ticks. */
  predicate RegularCadence(c: Config) {
    c.tps > 0 && Period(c) > 0 && Period(c) as real == c.pipeSpawnRate * c.tps as real
  }

  lemma WrapCondition(c: Config, i: int)
    requires c.tps > 0
    ensures (i + 1) as real / c.tps as real == c.pipeSpawnRate
        <==> (i + 1) as real == c.pipeSpawnRate * c.tps as real
  {
    var t := c.tps as real;
    var q := (i + 1) as real / t;
    assert q * t == (i + 1) as real;
    if (i + 1) as real == c.pipeSpawnRate * t {
      assert (q - c.pipeSpawnRate) * t == 0.0;
    }
  }

  /** With a regular cadence the counter counts 0, 1, ..., P - 1, 0, ... */
  lemma NextIntervalWraps(c: Config, i: int)
    requires RegularCadence(c)
    requires 0 <= i < Period(c)
    ensures NextInterval(c, i) == if i + 1 == Period(c) then 0 else i + 1
    ensures 0 <= NextInterval(c, i) < Period(c)
  {
    WrapCondition(c, i);
  }

  /** Otherwise the counter is never reset: a generation spawns one pair only. */
  lemma IrregularCadenceNeverWraps(c: Config, i: int)
    requires c.tps > 0 && !RegularCadence(c)
    requires i >= 0
    ensures NextInterval(c, i) == i + 1
  {
    WrapCondition(c, i);
    assert ((i + 1) as real).Floor == i + 1;
    if (i + 1) as real / c.tps as real == c.pipeSpawnRate {
      assert Period(c) == i + 1;
      assert RegularCadence(c);
    }
  }

  /** The pipes a sweep keeps of `ps`: each pipe updated once, in order, and
      dropped when its update sets `out`. */
  function Sweep(update: Pipe -> Pipe, ps: seq<Pipe>): (r: seq<Pipe>)
    ensures |r| <= |ps|
    ensures forall j :: 0 <= j < |r| ==> !r[j].out
  {
    if ps == [] then []
    else
      var p := update(ps[|ps| - 1]);
      Sweep(update, ps[..|ps| - 1]) + (if p.out then [] else [p])
  }

  /** The survivors of a sweep are exactly the updated pipes whose `out` flag
      is clear, in their original relative order: `kept` lists their indices. */
  lemma {:induction false} SweepKeepsInOrder(update: Pipe -> Pipe, ps: seq<Pipe>)
    returns (kept: seq<int>)
    ensures |kept| == |Sweep(update, ps)|
    ensures forall j :: 0 <= j < |kept| ==>
              0 <= kept[j] < |ps| && Sweep(update, ps)[j] == update(ps[kept[j]])
    ensures forall j1, j2 :: 0 <= j1 < j2 < |kept| ==> kept[j1] < kept[j2]
    ensures forall i :: 0 <= i < |ps| ==> (i in kept <==> !update(ps[i]).out)
  {
    if ps == [] {
      kept := [];
    } else {
      var n := |ps| - 1;
      var front := ps[..n];
      var k0 := SweepKeepsInOrder(update, front);
      var sw0 := Sweep(update, front);
      var p := update(ps[n]);
      assert Sweep(update, ps) == sw0 + (if p.out then [] else [p]);
      assert forall i :: 0 <= i < n ==> front[i] == ps[i];
      if p.out {
        kept := k0;
      } else {
        kept := k0 + [n];
        forall j | 0 <= j < |kept|
          ensures 0 <= kept[j] < |ps| && Sweep(update, ps)[j] == update(ps[kept[j]])
        {
          if j < |k0| {
            assert kept[j] == k0[j];
            assert (sw0 + [p])[j] == sw0[j];
          }
        }
      }
      forall i | 0 <= i < |ps|
        ensures i in kept <==> !update(ps[i]).out
      {
        if i < n {
          assert i in kept <==> i in k0;
        }
      }
    }
  }

  /** The sweep as js/game.js writes it: walk the array, update each pipe and
      splice it out in place when it is out, stepping the index back.
      `visited` lists the pipes handed to `update`, in the order of the calls. */
  method SweepPipes(update: Pipe -> Pipe, ps: seq<Pipe>) returns (pipes: seq<Pipe>, visited: seq<Pipe>)
    ensures visited == ps
    ensures pipes == Sweep(update, ps)
  {
    pipes := ps;
    visited := [];
    var i := 0;
    while i < |pipes|
      invariant 0 <= i <= |pipes|
      invariant |visited| <= |ps|
      invariant visited == ps[..|visited|]
      invariant pipes[..i] == Sweep(update, visited)
      invariant pipes[i..] == ps[|visited|..]
      decreases |pipes| - i
    {
      ghost var rest := pipes[i + 1..];
      assert pipes[i] == ps[|visited|];
      assert rest == ps[|visited| + 1..];
      visited := visited + [pipes[i]];
      assert visited[..|visited| - 1] == ps[..|visited| - 1];
      pipes := pipes[i := update(pipes[i])];
      assert pipes[..i] == Sweep(update, visited[..|visited| - 1]);
      assert pipes[i + 1..] == rest;
      if pipes[i].out {
        pipes := pipes[..i] + pipes[i + 1..];
        assert pipes[i..] == rest;
        i := i - 1;
      } else {
        assert pipes[..i + 1] == pipes[..i] + [pipes[i]];
      }
      i := i + 1;
    }
    assert pipes[i..] == [];
    assert visited == ps;
  }
}

=== FILE: targeting.dfy ===
/** Choice of the pipe the birds steer towards and of the target point. */
module Targeting {
  import opened Entities

  /** The pipe's right edge is still to the right of the birds. */
  predicate Ahead(c: Config, p: Pipe) {
    p.x + c.pipeWidth as real > c.birdX as real
  }

  /** Index of the first pipe at or after `from` that is ahead of the birds. */
  function FindAhead(c: Config, ps: seq<Pipe>, from: nat): (r: Option<nat>)
    requires from <= |ps|
    ensures r.Some? ==> from <= r.value < |ps| && Ahead(c, ps[r.value])
    ensures r.Some? ==> forall j :: from <= j < r.value ==> !Ahead(c, ps[j])
    ensures r.None? <==> forall j :: from <= j < |ps| ==> !Ahead(c, ps[j])
    decreases |ps| - from
  {
    if from == |ps| then None
    else if Ahead(c, ps[from]) then Some(from)
    else FindAhead(c, ps, from + 1)
  }

  /** `pipes.find(...)`: the first pipe in sequence order that is ahead. */
  function Nearest(c: Config, ps: seq<Pipe>): (r: Option<nat>)
    ensures r.Some? ==> r.value < |ps| && Ahead(c, ps[r.value])
    ensures r.Some? ==> forall j :: 0 <= j < r.value ==> !Ahead(c, ps[j])
    ensures r.None? <==> forall j :: 0 <= j < |ps| ==> !Ahead(c, ps[j])
  {
    FindAhead(c, ps, 0)
  }

  /** The point the birds steer to: half a pipe width right of the pipe's x,
      and half a gap below the pipe's bottom edge. */
  function TargetOf(c: Config, p: Pipe): Point {
    Point(p.x + c.pipeWidth as real / 2.0,
          p.y + c.pipeHeight as real + c.holeSize as real / 2.0)
  }

  /** Appending pipes never changes which pipe is nearest once one is found. */
  lemma NearestStableUnderAppend(c: Config, ps: seq<Pipe>, more: seq<Pipe>)
    requires Nearest(c, ps).Some?
    ensures Nearest(c, ps + more) == Nearest(c, ps)
  {
    var i := Nearest(c, ps).value;
    assert (ps + more)[i] == ps[i];
    assert forall j :: 0 <= j < i ==> (ps + more)[j] == ps[j];
  }

  /** A pipe that is ahead guarantees the search succeeds, at that pipe or
      at an earlier one. */
  lemma NearestExistsWhenOneAhead(c: Config, ps: seq<Pipe>, i: int)
    requires 0 <= i < |ps| && Ahead(c, ps[i])
    ensures Nearest(c, ps).Some? && Nearest(c, ps).value <= i
  {
  }

  /** Behind pipes none of which is ahead, a first pipe that is ahead is
      the nearest. */
  lemma NearestPastPrefix(c: Config, ps: seq<Pipe>, more: seq<Pipe>)
    requires Nearest(c, ps).None?
    requires |more| > 0 && Ahead(c, more[0])
    ensures Nearest(c, ps + more) == Some(|ps|)
  {
    assert (ps + more)[|ps|] == more[0];
    assert forall j :: 0 <= j < |ps| ==> (ps + more)[j] == ps[j];
  }

  /** When the pipes are ordered by x, the first pipe ahead has the least x
      of all the pipes ahead. */
  lemma NearestHasLeastX(c: Config, ps: seq<Pipe>)
    requires forall i, j :: 0 <= i < j < |ps| ==> ps[i].x <= ps[j].x
    requires Nearest(c, ps).Some?
    ensures forall j :: 0 <= j < |ps| && Ahead(c, ps[j]) ==>
              ps[Nearest(c, ps).value].x <= ps[j].x
  {
  }
}
